=== FILE: README.md ===
# CryptonightR program cache — a Dafny model

This project models the sequential logic of `src/amd/OclCryptonightR_gen.cpp`
from xmrig-amd: the code that sits between the CryptonightR random-math
instruction generator and the OpenCL driver.

- **Instruction renderer** (`get_code`, module `Renderer`). It turns the
  generated instructions into OpenCL statements, one `'\n'`-terminated
  statement per instruction, in input order. A reader `ParseCode` inverts it.
  The round trip shows that each opcode has its own template and that
  registers and ADD immediates are all recoverable from the text.
- **Compiled-program cache** (`CryptonightR_cache`, module `Cache`). The
  cache is a `seq<CacheEntry>` with a four-field lookup. Its swap-with-last
  removal loop is modelled step by step, in the same order as the source. The
  loop backs two eviction policies: stale heights and a departing device.
- **Build coordinator** (`CryptonightR_build_program`, module `Builder`). It
  releases the superseded kernel, evicts and releases stale entries, looks the
  key up again, and otherwise creates, compiles and waits. A program that
  fails after creation is released. A program that builds is appended to the
  cache.
- **Request path** (`CryptonightR_get_program`, module `Request`). It
  rejects an unsupported variant or a template without the marker. It splices
  the rendered code in place of the first `XMRIG_INCLUDE_RANDOM_MATH`, appends
  ` -DVARIANT=n` to the options, fills in the device string on demand, hashes,
  and answers from the cache or else builds.
- **Context teardown** (`CryptonightR_release`, `Builder.ReleaseContext`). It
  releases the context's own program and drops every entry of that device.

The OpenCL driver is abstract. A `DriverOutcome` says what the driver answers
to one build: the handle `createProgramWithSource` returns, or none; whether
`buildProgram` succeeds; whether `wait_build` succeeds. Everything the core
asks of the driver is recorded, in order, as a sequence of `DriverCall`s.
The collaborators the file calls but does not define are fields of `Env`,
each a deterministic function or value:
- the kernel template text;
- `PRECOMPILATION_DEPTH`;
- the enumerator values of `VARIANT_WOW` and `VARIANT_4`;
- `v4_random_math_init`, `OclCache::getOptions`,
  `OclCache::get_device_string` and `OclCache::calc_hash`.

Heights are `uint64`. The staleness test `entry.height + PRECOMPILATION_DEPTH
< height` is modelled with the source's 64-bit wrap-around (`AddWrap`).
`Cache.StaleWrapsAround` shows an input where the wrap-around matters.

Points where the code's behaviour may surprise, modelled as written:
- Device eviction drops the removed entries without releasing their
  programs. Only the context's own bound program is released.
- The superseded kernel is released only on the build path. A request
  answered by the first lookup makes no driver call at all.
- Staleness is computed in `uint64_t`, not in unbounded arithmetic.

## Model

| member | source | states |
|---|---|---|
| Renderer.RenderEmpty | src/amd/OclCryptonightR_gen.cpp:13-51 | the empty program renders to the empty text, and no other program does |
| Renderer.RenderAppend | src/amd/OclCryptonightR_gen.cpp:17-49 | rendering is compositional: the text of `a + b` is the text of `a` followed by the text of `b` |
| Renderer.StatementHasNoNewline | src/amd/OclCryptonightR_gen.cpp:24-46 | a statement contains no line terminator of its own |
| Renderer.RenderLineCount | src/amd/OclCryptonightR_gen.cpp:17-49 | the rendered text has exactly one `'\n'` per instruction |
| Renderer.ParseLineOfLine | src/amd/OclCryptonightR_gen.cpp:24-48 | each opcode's template (MUL, ADD with its `U` immediate, SUB, ROR with `ROT_BITS-r`, ROL with `r`, XOR) reads back as that opcode with its registers and, for ADD, its immediate |
| Renderer.ParseRender | src/amd/OclCryptonightR_gen.cpp:13-52 | reading back a rendered program yields the program in the same order, with only the never-printed immediates of non-ADD opcodes cleared |
| Renderer.RenderInjective | src/amd/OclCryptonightR_gen.cpp:13-52 | two programs render to the same text if and only if they agree on every opcode, register and ADD immediate, in order |
| Decimal.ParseNatDec | src/amd/OclCryptonightR_gen.cpp:27-31 | the decimal text `operator<<` prints for an unsigned operand reads back as that number |
| Decimal.ParseIntText | src/amd/OclCryptonightR_gen.cpp:290 | the `%d` text of a variant reads back as that variant |
| Base.AddWrap | src/amd/OclCryptonightR_gen.cpp:170 | `uint64_t` addition equals the plain sum below 2^64 and the sum minus 2^64 above it |
| Cache.Lookup | src/amd/OclCryptonightR_gen.cpp:195-203 | returns nothing exactly when no entry matches variant, height, device index and hash |
| Cache.LookupFirst | src/amd/OclCryptonightR_gen.cpp:195-203 | a lookup that finds something returns the program of the first entry whose four fields match |
| Cache.EvictionKeepsMiss | src/amd/OclCryptonightR_gen.cpp:161-182 | a key the cache misses is still missed after stale eviction, which only removes entries |
| Cache.SwapRemove | src/amd/OclCryptonightR_gen.cpp:174-175 | overwriting entry `i` with the last entry and popping removes exactly one copy of entry `i` and leaves the entries before `i` in place |
| Cache.UniqueAfterSwapRemove | src/amd/OclCryptonightR_gen.cpp:138-139 | a swap-with-last removal keeps the keys of the cache unique |
| Cache.SweepFrom | src/amd/OclCryptonightR_gen.cpp:167-181 | the removal loop splits the cache into survivors and removed entries, as multisets; no survivor is condemned and every removed entry is |
| Cache.SweepKeepsUnique | src/amd/OclCryptonightR_gen.cpp:167-181 | the removal loop keeps the keys of the cache unique |
| Cache.SweepNothingDoomed | src/amd/OclCryptonightR_gen.cpp:167-181 | when no entry is condemned the removal loop leaves the cache as it was, order included, and removes nothing |
| Cache.SweepAll | src/amd/OclCryptonightR_gen.cpp:132-145 | a full pass keeps each uncondemned entry with its multiplicity, removes each condemned one, and survivors plus removed equal the original size |
| Cache.EvictStale | src/amd/OclCryptonightR_gen.cpp:161-182 | after stale eviction no entry of the variant with `height + depth < height` (in `uint64_t`) remains; every other entry survives as a multiset; the collected entries are exactly the removed ones; removed plus remaining equals the original size |
| Cache.EvictDevice | src/amd/OclCryptonightR_gen.cpp:129-145 | after device eviction no entry of that device remains and every other entry survives with its multiplicity |
| Cache.StaleWithoutOverflow | src/amd/OclCryptonightR_gen.cpp:170 | while `height + depth` stays below 2^64 the stale test is the plain comparison |
| Cache.StaleWrapsAround | src/amd/OclCryptonightR_gen.cpp:170 | an entry at the top of the `uint64_t` range counts as stale for a far lower requested height |
| Cache.LookupAppend | src/amd/OclCryptonightR_gen.cpp:236-239 | once an entry with an absent key is appended, a lookup of that key finds it |
| Cache.UniqueAppend | src/amd/OclCryptonightR_gen.cpp:236-239 | appending an entry whose key is absent keeps keys unique |
| Builder.ReleaseContext | src/amd/OclCryptonightR_gen.cpp:125-146 | teardown leaves no entry of the context's device and every other entry untouched, as a multiset; its only driver call releases the context's own program |
| Builder.ReleaseAll | src/amd/OclCryptonightR_gen.cpp:184-186 | one release per evicted entry, in eviction order, and every evicted entry's program among them |
| Builder.Prelude | src/amd/OclCryptonightR_gen.cpp:157-186 | the calls before the re-check start with the release of the superseded kernel when there is one, release every stale entry's program, and create nothing |
| Builder.BuildProgram | src/amd/OclCryptonightR_gen.cpp:148-241 | keys stay unique; the calls begin with the kernel and stale-program releases; on a re-check hit the cached program is returned with the post-eviction cache and no further call; on a miss the next call creates the program from the given source, the one after compiles it with the given options, and exactly one compile begins; the result is null exactly when the re-check misses and create, build or wait fails, and then the cache is the post-eviction cache and the created program, if any, is released last; on success exactly the entry `{variant, height, deviceIdx, hash, program}` is appended and the key resolves to it; `Builder.BuildKeepsProgram` adds that this program was waited for and is not released, and `Builder.BuildTrace` that after a re-check miss the calls are exactly the releases followed by one compile attempt |
| Builder.Recheck | src/amd/OclCryptonightR_gen.cpp:188-240 | a program cached meanwhile is returned with no driver call; otherwise the calls made so far are followed by one compile attempt, which begins with `CreateProgram(source)` and then `CompileProgram(program, options)`; a program results exactly when create, build and wait succeed, and it is then what the key resolves to; the calls after those made so far are exactly the attempt's (`Builder.TryCompile`); a program that results was waited for and is not released by any call after those made before the re-check |
| Builder.TryCompile | src/amd/OclCryptonightR_gen.cpp:209-232 | an attempt creates exactly once, from the given source, then compiles the created program with the given options; it yields a program exactly when create, build and wait all succeed, and that program is the created one; a failed create ends the attempt with no further call; otherwise the attempt is exactly create, compile, then `WaitBuild` only when the compile succeeded, then a release of the created program only when the compile or the wait failed, and nothing else; a program that results was waited for and is never released by the attempt, so the cache owns it |
| Builder.Install | src/amd/OclCryptonightR_gen.cpp:236-239 | on success the cache gains exactly the new entry at the back, the key resolves to its program and keys stay unique; on failure the cache is unchanged |
| Builder.Compile | src/amd/OclCryptonightR_gen.cpp:209-240 | after a re-check miss exactly one compile begins, after the calls made so far; the build yields the created program exactly when create, build and wait all succeed, and the cache then gains exactly the entry for the request; on a failure the cache is unchanged |
| Builder.BuildTrace | src/amd/OclCryptonightR_gen.cpp:148-241 | after a re-check miss a build makes exactly the kernel and stale-program releases followed by the calls of one compile attempt, and no other call |
| Builder.BuildKeepsProgram | src/amd/OclCryptonightR_gen.cpp:209-240 | when a build compiles the program it returns, that program was waited for and no call after the stale releases releases it: the handle returned and cached is live |
| Builder.BuildReleasesStale | src/amd/OclCryptonightR_gen.cpp:157-186 | a build's first call releases the superseded kernel when there is one, and every stale entry of the cache has its program released before anything is created |
| Builder.BuildEvictsStale | src/amd/OclCryptonightR_gen.cpp:161-186 | for every height, after a build no entry of the variant with `height + depth < height` in plain arithmetic is left, the only entries left that pass the `uint64_t` stale test are for the requested height, and every entry that was not stale is still cached |
| Builder.BuildLeavesNothingStale | src/amd/OclCryptonightR_gen.cpp:161-240 | while `height + depth` stays below 2^64 no entry a build leaves, the new one included, passes the stale test |
| Builder.BuildIdempotent | src/amd/OclCryptonightR_gen.cpp:188-207 | building the same key again on the cache a successful build left returns the same program, leaves the cache unchanged and begins no compile |
| Request.FindFrom | src/amd/OclCryptonightR_gen.cpp:260 | `strstr`: finds the first occurrence of the needle, or reports that there is none |
| Request.FindMarker | src/amd/OclCryptonightR_gen.cpp:259-265 | locates the first `XMRIG_INCLUDE_RANDOM_MATH` in the template, or reports that it is absent |
| Request.Splice | src/amd/OclCryptonightR_gen.cpp:282-284 | the source is the template before the marker, then the code, then the template after the marker |
| Request.SpliceRestores | src/amd/OclCryptonightR_gen.cpp:282-284 | putting the marker back in place of the code restores the template |
| Request.Options | src/amd/OclCryptonightR_gen.cpp:286-296 | the options start with the base options and ` -DVARIANT=`, and the rest reads back as the variant and nothing else |
| Request.OptionsNeverWide | src/amd/OclCryptonightR_gen.cpp:243-246 | the options never end in ` -DRANDOM_MATH_64_BIT` |
| Request.WithDeviceString | src/amd/OclCryptonightR_gen.cpp:300-302 | the device string is queried only when empty, and then the context holds the query's result; the request fails exactly when the string is empty and the query fails |
| Request.DeviceStringQueriedOnce | src/amd/OclCryptonightR_gen.cpp:300-302 | once the context holds a non-empty device string, filling it in again makes no query and changes nothing |
| Request.Prepare | src/amd/OclCryptonightR_gen.cpp:255-303 | a request is rejected exactly when the marker is absent, the variant is neither WOW nor VARIANT_4, or the device string cannot be obtained; otherwise the source is the template with the rendered code spliced in at the first marker, the options are the base options with the variant selector, and the hash is `calc_hash` of the device string, source and options |
| Request.PreparedOptions | src/amd/OclCryptonightR_gen.cpp:286-296 | the options a request prepares start with the base options and ` -DVARIANT=`, continue with text that reads back as the variant, and never end in ` -DRANDOM_MATH_64_BIT`; `Request.GetProgram` states that a request that builds compiles with exactly these options |
| Request.GetProgram | src/amd/OclCryptonightR_gen.cpp:248-320 | a background request answers null and changes nothing; a rejected request answers null and changes nothing; a cache hit returns the cached program with no driver call; on a miss the request builds: the stale releases come first, exactly one compile begins from the prepared source, the created program is then compiled with the prepared options, a program results exactly when create, build and wait succeed, and the cache is then the post-eviction cache plus the new entry, otherwise the post-eviction cache; the calls are exactly the stale releases followed by one compile attempt (`Builder.TryCompile`), so a created program that fails is released as the last call; keys stay unique; a returned program is what the cache holds for the request's key |
| Request.RejectedRequest | src/amd/OclCryptonightR_gen.cpp:259-280 | an unsupported variant or a template without the marker yields null and no change |
| Request.PreparedSource | src/amd/OclCryptonightR_gen.cpp:282-284 | the compiled source keeps the template around the first marker and carries, in its place, text that reads back as the generated program |
| Request.RequestBuilds | src/amd/OclCryptonightR_gen.cpp:305-319 | a request that misses the cache answers exactly what the build of its prepared source, options and hash answers, on the context with the device string filled in |
| Request.RequestKeepsProgram | src/amd/OclCryptonightR_gen.cpp:305-319 | a program a request had to build was waited for and is not released after the stale releases, so the program returned to the caller is the live one the cache holds |
| Request.RepeatRequestHits | src/amd/OclCryptonightR_gen.cpp:305-319 | whenever a request returns a program, an identical request is answered from the cache with the same program, no change and no driver call |
| Request.ReleasedDeviceMisses | src/amd/OclCryptonightR_gen.cpp:132-145 | after a context is released no request for its device can hit the cache |

## Left out

- Background queue and worker thread (`background_exec`, `background_thread_proc`, lines 71-123 and 250-252): a background request answers null and changes nothing. The queued job is not modelled; when it runs it is an ordinary request.
- Mutexes (`CryptonightR_cache_mutex`, `CryptonightR_build_mutex`): the model runs one call at a time. Concurrent at-most-one-compile is not modelled. Its sequential counterpart is `Builder.BuildIdempotent` and `Request.RepeatRequestHits`.
- OpenCL calls are an abstract `DriverOutcome` plus a recorded call trace. Handle freshness and the effect of a release are not modelled.
- `OclLib::releaseProgram` on a null `ProgramCryptonightR`: OclLib is not part of this model, so the release is recorded only when the context holds a program.
- `V4_Instruction` and its opcode enumeration come from a header that is not part of this model. Only the six opcodes the switch handles are modelled. An opcode outside the switch would print an empty statement and is not modelled. Register indices and immediates are unbounded naturals; the renderer prints any value in decimal.
- `v4_random_math_init`, `OclCache::getOptions`, `OclCache::get_device_string` and `OclCache::calc_hash` are opaque deterministic functions in `Env`. So are the numeric values of `VARIANT_WOW` and `VARIANT_4` and `PRECOMPILATION_DEPTH`. The 256-instruction buffer bound is the generator's concern.
- Template text is an arbitrary string. Truncation of the C strings at an embedded NUL is not modelled.
- The fixed `options[512]` and `variant_buf[64]` buffers: `snprintf`/`strcat` truncation is not modelled.
- Logging and `OclError::toString` have no effect on control flow and are left out.
- A partial write to `DeviceString` by a failing `get_device_string` is not modelled; a failed query leaves the context unchanged.
- Builder.BuildLeavesNothingStale: stated only where `height + depth < 2^64`. Above that, with the source's `uint64_t` wrap-around, the freshly built entry itself passes the stale test (`Cache.StaleWrapsAround` exhibits the wrap; `Builder.BuildEvictsStale` states that it is the only such entry).
- Builder.BuildIdempotent: stated only where `height + depth < 2^64`, for the same reason.

=== FILE: base.dfy ===
/** Small shared vocabulary: an optional value, the 64-bit unsigned integer
    type the cache uses for heights, and text-matching predicates. */
module Base {

  /** A value that may be absent; stands for a null pointer or a failed lookup. */
  datatype Option<+T> = None | Some(value: T)

  /** 2^64, the modulus of `uint64_t` arithmetic. */
  const TWO_TO_THE_64: int := 0x1_0000_0000_0000_0000

  newtype uint64 = x: int | 0 <= x < TWO_TO_THE_64

  /** `uint64_t` addition: wraps around modulo 2^64. */
  function AddWrap(x: uint64, y: uint64): (r: uint64)
    ensures x as int + y as int < TWO_TO_THE_64 ==> r as int == x as int + y as int
    ensures TWO_TO_THE_64 <= x as int + y as int ==> r as int == x as int + y as int - TWO_TO_THE_64
  {
    ((x as int + y as int) % TWO_TO_THE_64) as uint64
  }

  /** `s` begins with `p`. */
  predicate StartsWith(s: string, p: string) {
    |p| <= |s| && s[..|p|] == p
  }

  /** `s` ends with `p`. */
  predicate EndsWith(s: string, p: string) {
    |p| <= |s| && s[|s| - |p|..] == p
  }

  /** `needle` occurs in `s` starting at position `i`. */
  predicate OccursAt(s: string, needle: string, i: nat) {
    i + |needle| <= |s| && s[i..i + |needle|] == needle
  }
}

=== FILE: builder.dfy ===
/** `CryptonightR_release` and `CryptonightR_build_program`, run one call at
    a time. The OpenCL driver is abstract: what it answers to one build is a
    `DriverOutcome`, and what the core asks of it is recorded, in order, as a
    sequence of `DriverCall`s. */
module Builder {
  import opened Base
  import opened Cache

  /** A `cl_kernel` handle. */
  type KernelHandle = nat

  /** The device and launch settings of a context, opaque to this core. */
  type DeviceId = nat

  /** The parts of a `GpuContext` the core reads or writes. */
  datatype Context = Context(
    deviceIdx: nat,
    device: DeviceId,
    deviceString: string,
    program: Option<ProgramHandle>)

  /** The driver requests the core makes. */
  datatype DriverCall =
    | ReleaseKernel(kernel: KernelHandle)
    | ReleaseProgram(program: ProgramHandle)
    | CreateProgram(source: string)
    | CompileProgram(program: ProgramHandle, options: string)
    | WaitBuild(program: ProgramHandle)

  /** What the driver answers to one build: the handle
      `createProgramWithSource` returns, or None when it reports an error;
      whether `buildProgram` succeeds; whether `wait_build` succeeds. */
  datatype DriverOutcome = DriverOutcome(created: Option<ProgramHandle>, compiled: bool, waited: bool)

  /** The cache and the driver calls after a context is released. */
  datatype Teardown = Teardown(cache: seq<CacheEntry>, calls: seq<DriverCall>)

  /** `CryptonightR_release`: release the context's own program, then drop
      every cache entry of its device. */
  function ReleaseContext(cache: seq<CacheEntry>, ctx: Context): (r: Teardown)
    ensures forall e | e in r.cache :: e.deviceIdx != ctx.deviceIdx
    ensures forall e: CacheEntry | e.deviceIdx != ctx.deviceIdx :: multiset(r.cache)[e] == multiset(cache)[e]
    ensures UniqueKeys(cache) ==> UniqueKeys(r.cache)
    ensures |r.calls| <= 1
    ensures forall k | 0 <= k < |r.calls| :: ctx.program.Some? && r.calls[k] == ReleaseProgram(ctx.program.value)
    ensures ctx.program.Some? ==> ReleaseProgram(ctx.program.value) in r.calls
  {
    var calls := if ctx.program.Some? then [ReleaseProgram(ctx.program.value)] else [];
    Teardown(EvictDevice(cache, ctx.deviceIdx), calls)
  }

  /** The calls releasing the programs of evicted entries, in eviction order. */
  function ReleaseAll(es: seq<CacheEntry>): (calls: seq<DriverCall>)
    ensures |calls| == |es|
    ensures forall j | 0 <= j < |es| :: calls[j] == ReleaseProgram(es[j].program)
    ensures forall e | e in es :: ReleaseProgram(e.program) in calls
  {
    if |es| == 0 then []
    else
      var tail := ReleaseAll(es[1..]);
      assert forall j | 1 <= j < |es| :: es[j] == es[1..][j - 1];
      [ReleaseProgram(es[0].program)] + tail
  }

  /** The result of a build: the program (None for `nullptr`), the cache
      afterwards, and the driver calls made. */
  datatype BuildResult = BuildResult(program: Option<ProgramHandle>, cache: seq<CacheEntry>, calls: seq<DriverCall>)

  /** Number of `CreateProgram` calls in a trace: how many compiles began. */
  function Creates(calls: seq<DriverCall>): nat {
    if |calls| == 0 then 0 else (if calls[0].CreateProgram? then 1 else 0) + Creates(calls[1..])
  }

  /** The calls made before the build proper: the superseded kernel, then
      the programs of the stale entries. */
  function Prelude(oldKernel: Option<KernelHandle>, stale: seq<CacheEntry>): (calls: seq<DriverCall>)
    ensures oldKernel.Some? ==> 0 < |calls| && calls[0] == ReleaseKernel(oldKernel.value)
    ensures forall e | e in stale :: ReleaseProgram(e.program) in calls
    ensures forall k | 0 <= k < |calls| :: !calls[k].CreateProgram?
  {
    var head := if oldKernel.Some? then [ReleaseKernel(oldKernel.value)] else [];
    var all := ReleaseAll(stale);
    assert (head + all)[|head|..] == all;
    head + all
  }

  /** `CryptonightR_build_program`: release the superseded kernel, evict and
      release the stale entries, look the key up again, and otherwise create,
      compile and wait; a program that got created but failed later is
      released, a program that built is appended to the cache. */
  function BuildProgram(
    cache: seq<CacheEntry>, ctx: Context, variant: Variant, height: uint64, depth: uint64,
    oldKernel: Option<KernelHandle>, source: string, options: string, hash: string,
    driver: DriverOutcome): (r: BuildResult)
    ensures var swept := EvictStale(cache, variant, height, depth);
            var key := CacheKey(variant, height, ctx.deviceIdx, hash);
            && (UniqueKeys(cache) ==> UniqueKeys(r.cache))
            && (r.program.Some? ==> Lookup(r.cache, key) == r.program)
            && (r.program.None? ==> r.cache == swept.kept)
            && (Lookup(swept.kept, key).Some? ==> r.program == Lookup(swept.kept, key) && r.cache == swept.kept && Creates(r.calls) == 0)
            && (Lookup(swept.kept, key).None? ==> Creates(r.calls) == 1)
            && (r.program.Some? <==> (Lookup(swept.kept, key).Some? || (driver.created.Some? && driver.compiled && driver.waited)))
            && (Lookup(swept.kept, key).None? && r.program.Some? ==>
                  r.program == driver.created &&
                  r.cache == swept.kept + [CacheEntry(variant, height, ctx.deviceIdx, hash, r.program.value)])
            && (Lookup(swept.kept, key).None? && r.program.None? && driver.created.Some? ==>
                  r.calls[|r.calls| - 1] == ReleaseProgram(driver.created.value))
    ensures var prelude := Prelude(oldKernel, EvictStale(cache, variant, height, depth).removed);
            var key := CacheKey(variant, height, ctx.deviceIdx, hash);
            && |prelude| <= |r.calls|
            && r.calls[..|prelude|] == prelude
            && (Lookup(EvictStale(cache, variant, height, depth).kept, key).Some? ==> r.calls == prelude)
            && (Lookup(EvictStale(cache, variant, height, depth).kept, key).None? ==>
                  |prelude| < |r.calls| && r.calls[|prelude|] == CreateProgram(source))
            && (Lookup(EvictStale(cache, variant, height, depth).kept, key).None? && driver.created.Some? ==>
                  |prelude| + 1 < |r.calls| && r.calls[|prelude| + 1] == CompileProgram(driver.created.value, options))
  {
    var swept := EvictStale(cache, variant, height, depth);
    var prelude := Prelude(oldKernel, swept.removed);
    PreludeCreatesNothing(oldKernel, swept.removed);
    var proto := CacheEntry(variant, height, ctx.deviceIdx, hash, 0);
    var r := Recheck(swept.kept, prelude, proto, source, options, driver);
    assert r.program.Some? ==> CacheEntry(variant, height, ctx.deviceIdx, hash, r.program.value) == proto.(program := r.program.value);
    r
  }

  /** The re-check under the build lock, after the stale entries are gone:
      a program cached meanwhile is returned as is, otherwise it is built. */
  function Recheck(
    kept: seq<CacheEntry>, prelude: seq<DriverCall>, proto: CacheEntry,
    source: string, options: string, driver: DriverOutcome): (r: BuildResult)
    requires Creates(prelude) == 0
    ensures UniqueKeys(kept) ==> UniqueKeys(r.cache)
    ensures r.program.Some? ==> Lookup(r.cache, Key(proto)) == r.program
    ensures r.program.None? ==> r.cache == kept
    ensures |prelude| <= |r.calls| && r.calls[..|prelude|] == prelude
    ensures Lookup(kept, Key(proto)).Some? ==>
              r.program == Lookup(kept, Key(proto)) && r.cache == kept && r.calls == prelude && Creates(r.calls) == 0
    ensures Lookup(kept, Key(proto)).None? ==>
              && Creates(r.calls) == 1
              && |prelude| < |r.calls| && r.calls[|prelude|] == CreateProgram(source)
              && (r.program.Some? <==> (driver.created.Some? && driver.compiled && driver.waited))
              && (r.program.Some? ==> r.program == driver.created && r.cache == kept + [proto.(program := r.program.value)])
              && (r.program.None? && driver.created.Some? ==> r.calls[|r.calls| - 1] == ReleaseProgram(driver.created.value))
              && (driver.created.Some? ==>
                    |prelude| + 1 < |r.calls| && r.calls[|prelude| + 1] == CompileProgram(driver.created.value, options))
              && (r.program.Some? ==>
                    WaitBuild(r.program.value) in r.calls[|prelude|..] && ReleaseProgram(r.program.value) !in r.calls[|prelude|..])
              && r.calls == prelude + TryCompile(source, options, driver).calls
  {
    match Lookup(kept, Key(proto))
    case Some(p) =>
      assert prelude[..|prelude|] == prelude;
      BuildResult(Some(p), kept, prelude)
    case None =>
      var r := Compile(kept, prelude, proto, source, options, driver);
      var a := TryCompile(source, options, driver);
      assert r.calls[|r.calls| - 1] == a.calls[|a.calls| - 1];
      assert r.calls[|prelude|..] == a.calls;
      r
  }

  /** The build proper after a re-check miss: one compile attempt after
      `prelude`; on success `proto` with the new program is appended. */
  function Compile(
    kept: seq<CacheEntry>, prelude: seq<DriverCall>, proto: CacheEntry,
    source: string, options: string, driver: DriverOutcome): (r: BuildResult)
    requires Lookup(kept, Key(proto)).None?
    requires Creates(prelude) == 0
    ensures UniqueKeys(kept) ==> UniqueKeys(r.cache)
    ensures Creates(r.calls) == 1
    ensures r.program.Some? <==> (driver.created.Some? && driver.compiled && driver.waited)
    ensures r.program.Some? ==>
              && r.program == driver.created
              && r.cache == kept + [proto.(program := r.program.value)]
              && Lookup(r.cache, Key(proto)) == r.program
    ensures r.program.None? ==> r.cache == kept
    ensures r.calls == prelude + TryCompile(source, options, driver).calls
  {
    var a := TryCompile(source, options, driver);
    Extend(prelude, a.calls);
    BuildResult(a.program, Install(kept, proto, a.program), prelude + a.calls)
  }

  /** The driver calls of one compile attempt and the program it yields. */
  datatype Attempt = Attempt(program: Option<ProgramHandle>, calls: seq<DriverCall>)

  /** Create, compile and wait; a program that got created but failed later
      is released as the last call. */
  function TryCompile(source: string, options: string, driver: DriverOutcome): (a: Attempt)
    ensures 0 < |a.calls| && a.calls[0] == CreateProgram(source)
    ensures forall k | 1 <= k < |a.calls| :: !a.calls[k].CreateProgram?
    ensures a.program.Some? <==> (driver.created.Some? && driver.compiled && driver.waited)
    ensures a.program.Some? ==> a.program == driver.created
    ensures a.program.None? && driver.created.Some? ==> a.calls[|a.calls| - 1] == ReleaseProgram(driver.created.value)
    ensures driver.created.Some? ==> 1 < |a.calls| && a.calls[1] == CompileProgram(driver.created.value, options)
    ensures driver.created.None? ==> a.calls == [CreateProgram(source)]
    ensures a.program.Some? ==> WaitBuild(a.program.value) in a.calls && ReleaseProgram(a.program.value) !in a.calls
    ensures driver.created.Some? ==> |a.calls| == (if driver.compiled && !driver.waited then 4 else 3)
    ensures driver.created.Some? && driver.compiled ==> a.calls[2] == WaitBuild(driver.created.value)
  {
    match driver.created
    case None => Attempt(None, [CreateProgram(source)])
    case Some(p) =>
      if !driver.compiled then Attempt(None, [CreateProgram(source), CompileProgram(p, options), ReleaseProgram(p)])
      else if !driver.waited then
        Attempt(None, [CreateProgram(source), CompileProgram(p, options), WaitBuild(p), ReleaseProgram(p)])
      else Attempt(Some(p), [CreateProgram(source), CompileProgram(p, options), WaitBuild(p)])
  }

  /** `emplace_back` of the new entry when the compile succeeded. */
  function Install(kept: seq<CacheEntry>, proto: CacheEntry, program: Option<ProgramHandle>): (c: seq<CacheEntry>)
    requires Lookup(kept, Key(proto)).None?
    ensures UniqueKeys(kept) ==> UniqueKeys(c)
    ensures program.Some? ==> c == kept + [proto.(program := program.value)] && Lookup(c, Key(proto)) == program
    ensures program.None? ==> c == kept
  {
    if program.Some? then
      var entry := proto.(program := program.value);
      LookupAppend(kept, entry);
      UniqueAppend(kept, entry);
      kept + [entry]
    else kept
  }

  /** Appending the calls of one compile attempt, which begin with its only
      `CreateProgram`, to a trace. */
  lemma Extend(prelude: seq<DriverCall>, tail: seq<DriverCall>)
    requires 0 < |tail| && tail[0].CreateProgram?
    requires forall k | 1 <= k < |tail| :: !tail[k].CreateProgram?
    ensures Creates(prelude + tail) == Creates(prelude) + 1
    ensures (prelude + tail)[..|prelude|] == prelude
  {
    CreatesAppend(prelude, tail);
    CreatesNone(tail[1..]);
  }

  lemma {:induction false} CreatesAppend(a: seq<DriverCall>, b: seq<DriverCall>)
    ensures Creates(a + b) == Creates(a) + Creates(b)
    decreases |a|
  {
    if |a| == 0 {
      assert a + b == b;
    } else {
      assert (a + b)[1..] == a[1..] + b;
      CreatesAppend(a[1..], b);
    }
  }

  lemma {:induction false} CreatesNone(calls: seq<DriverCall>)
    requires forall k | 0 <= k < |calls| :: !calls[k].CreateProgram?
    ensures Creates(calls) == 0
    decreases |calls|
  {
    if |calls| > 0 {
      CreatesNone(calls[1..]);
    }
  }

  lemma PreludeCreatesNothing(oldKernel: Option<KernelHandle>, stale: seq<CacheEntry>)
    ensures Creates(Prelude(oldKernel, stale)) == 0
  {
    CreatesNone(Prelude(oldKernel, stale));
  }

  /** A build releases the superseded kernel first and the program of every
      stale entry before the re-check; nothing is created before that. */
  lemma BuildReleasesStale(
    cache: seq<CacheEntry>, ctx: Context, variant: Variant, height: uint64, depth: uint64,
    oldKernel: Option<KernelHandle>, source: string, options: string, hash: string,
    driver: DriverOutcome)
    ensures var r := BuildProgram(cache, ctx, variant, height, depth, oldKernel, source, options, hash, driver);
            var n := |Prelude(oldKernel, EvictStale(cache, variant, height, depth).removed)|;
            && (oldKernel.Some? ==> 0 < |r.calls| && r.calls[0] == ReleaseKernel(oldKernel.value))
            && n <= |r.calls|
            && (forall e | e in cache && IsStale(e, variant, height, depth) :: ReleaseProgram(e.program) in r.calls[..n])
            && (forall k | 0 <= k < n :: !r.calls[k].CreateProgram?)
  {
    var r := BuildProgram(cache, ctx, variant, height, depth, oldKernel, source, options, hash, driver);
    PreludeReleasesStale(cache, variant, height, depth, oldKernel);
    assert r.calls[..|Prelude(oldKernel, EvictStale(cache, variant, height, depth).removed)|] == Prelude(oldKernel, EvictStale(cache, variant, height, depth).removed);
  }

  /** After a re-check miss, a build's calls are exactly the releases before
      the re-check followed by one compile attempt. */
  lemma BuildTrace(
    cache: seq<CacheEntry>, ctx: Context, variant: Variant, height: uint64, depth: uint64,
    oldKernel: Option<KernelHandle>, source: string, options: string, hash: string,
    driver: DriverOutcome)
    ensures var swept := EvictStale(cache, variant, height, depth);
            Lookup(swept.kept, CacheKey(variant, height, ctx.deviceIdx, hash)).None? ==>
              BuildProgram(cache, ctx, variant, height, depth, oldKernel, source, options, hash, driver).calls
                == Prelude(oldKernel, swept.removed) + TryCompile(source, options, driver).calls
  {
  }

  /** A program a build compiled was waited for and is not released after
      the calls before the re-check: the cache owns it. */
  lemma BuildKeepsProgram(
    cache: seq<CacheEntry>, ctx: Context, variant: Variant, height: uint64, depth: uint64,
    oldKernel: Option<KernelHandle>, source: string, options: string, hash: string,
    driver: DriverOutcome)
    ensures var r := BuildProgram(cache, ctx, variant, height, depth, oldKernel, source, options, hash, driver);
            var swept := EvictStale(cache, variant, height, depth);
            var n := |Prelude(oldKernel, swept.removed)|;
            Lookup(swept.kept, CacheKey(variant, height, ctx.deviceIdx, hash)).None? && r.program.Some? ==>
              n <= |r.calls|
              && WaitBuild(r.program.value) in r.calls[n..]
              && ReleaseProgram(r.program.value) !in r.calls[n..]
  {
  }

  /** The calls before the re-check release every stale entry's program. */
  lemma PreludeReleasesStale(cache: seq<CacheEntry>, variant: Variant, height: uint64, depth: uint64, oldKernel: Option<KernelHandle>)
    ensures var prelude := Prelude(oldKernel, EvictStale(cache, variant, height, depth).removed);
            forall e | e in cache && IsStale(e, variant, height, depth) :: ReleaseProgram(e.program) in prelude
  {
    var removed := EvictStale(cache, variant, height, depth).removed;
    forall e | e in cache && IsStale(e, variant, height, depth)
      ensures e in removed
    {
      assert multiset(removed)[e] == multiset(cache)[e];
    }
  }


  /** After a build for `(variant, height)` no entry of that variant whose
      height is more than `depth` below `height` is left, and every other
      entry that was cached still is. In `uint64_t` arithmetic the only
      entry left that passes the stale test is one for the requested
      height: the new entry, once `height + depth` wraps around. */
  lemma BuildEvictsStale(
    cache: seq<CacheEntry>, ctx: Context, variant: Variant, height: uint64, depth: uint64,
    oldKernel: Option<KernelHandle>, source: string, options: string, hash: string,
    driver: DriverOutcome)
    ensures var r := BuildProgram(cache, ctx, variant, height, depth, oldKernel, source, options, hash, driver);
            && (forall e | e in r.cache :: !(e.variant == variant && e.height as int + depth as int < height as int))
            && (forall e | e in r.cache && IsStale(e, variant, height, depth) :: e.height == height)
            && (forall e | !IsStale(e, variant, height, depth) :: multiset(cache)[e] <= multiset(r.cache)[e])
  {
    var r := BuildProgram(cache, ctx, variant, height, depth, oldKernel, source, options, hash, driver);
    BuildCacheShape(cache, ctx, variant, height, depth, oldKernel, source, options, hash, driver);
    KeptOrExtended(cache, r.cache, variant, height, depth);
  }

  /** The eviction facts carried over to a cache that is the surviving
      entries, possibly followed by one entry for the requested height. */
  lemma KeptOrExtended(cache: seq<CacheEntry>, after: seq<CacheEntry>, variant: Variant, height: uint64, depth: uint64)
    requires var kept := EvictStale(cache, variant, height, depth).kept;
             || after == kept
             || (|after| == |kept| + 1 && after == kept + [after[|kept|]] && after[|kept|].height == height)
    ensures forall e | e in after :: !(e.variant == variant && e.height as int + depth as int < height as int)
    ensures forall e | e in after && IsStale(e, variant, height, depth) :: e.height == height
    ensures forall e | !IsStale(e, variant, height, depth) :: multiset(cache)[e] <= multiset(after)[e]
  {
    var kept := EvictStale(cache, variant, height, depth).kept;
    assert multiset(kept) <= multiset(after);
    forall e | e in after
      ensures !(e.variant == variant && e.height as int + depth as int < height as int)
    {
      if e in kept {
        assert !IsStale(e, variant, height, depth);
      }
    }
  }

  /** A build leaves the surviving entries, followed by at most one entry
      for the requested height. */
  lemma BuildCacheShape(
    cache: seq<CacheEntry>, ctx: Context, variant: Variant, height: uint64, depth: uint64,
    oldKernel: Option<KernelHandle>, source: string, options: string, hash: string,
    driver: DriverOutcome)
    ensures var r := BuildProgram(cache, ctx, variant, height, depth, oldKernel, source, options, hash, driver);
            var kept := EvictStale(cache, variant, height, depth).kept;
            || r.cache == kept
            || (|r.cache| == |kept| + 1 && r.cache == kept + [r.cache[|kept|]] && r.cache[|kept|].height == height)
  {
  }

  /** The double-checked build is idempotent: building the same key again
      on the cache a successful build left returns the same program, leaves
      the cache as it was and compiles nothing. */
  lemma BuildIdempotent(
    cache: seq<CacheEntry>, ctx: Context, variant: Variant, height: uint64, depth: uint64,
    oldKernel: Option<KernelHandle>, oldKernel': Option<KernelHandle>,
    source: string, options: string, hash: string,
    driver: DriverOutcome, driver': DriverOutcome)
    requires height as int + depth as int < TWO_TO_THE_64
    requires BuildProgram(cache, ctx, variant, height, depth, oldKernel, source, options, hash, driver).program.Some?
    ensures var r := BuildProgram(cache, ctx, variant, height, depth, oldKernel, source, options, hash, driver);
            var r' := BuildProgram(r.cache, ctx, variant, height, depth, oldKernel', source, options, hash, driver');
            && r'.program == r.program
            && r'.cache == r.cache
            && Creates(r'.calls) == 0
  {
    var r := BuildProgram(cache, ctx, variant, height, depth, oldKernel, source, options, hash, driver);
    BuildLeavesNothingStale(cache, ctx, variant, height, depth, oldKernel, source, options, hash, driver);
    assert EvictStale(r.cache, variant, height, depth) == Sweep(r.cache, []);
  }

  /** Without wrap-around, no entry a build leaves passes the stale test. */
  lemma BuildLeavesNothingStale(
    cache: seq<CacheEntry>, ctx: Context, variant: Variant, height: uint64, depth: uint64,
    oldKernel: Option<KernelHandle>, source: string, options: string, hash: string,
    driver: DriverOutcome)
    requires height as int + depth as int < TWO_TO_THE_64
    ensures var r := BuildProgram(cache, ctx, variant, height, depth, oldKernel, source, options, hash, driver);
            forall e | e in r.cache :: !IsStale(e, variant, height, depth)
  {
    var r := BuildProgram(cache, ctx, variant, height, depth, oldKernel, source, options, hash, driver);
    var swept := EvictStale(cache, variant, height, depth);
    forall e | e in r.cache
      ensures !IsStale(e, variant, height, depth)
    {
      if e !in swept.kept {
        assert e.height == height;
      }
    }
  }
}

=== FILE: cache.dfy ===
/** The compiled-program cache `CryptonightR_cache`: a vector of entries, its
    four-field lookup, and the swap-with-last removal loop used by both
    eviction policies (stale heights, and a device going away). */
module Cache {
  import opened Base

  /** An `xmrig::Variant` enumerator value. */
  type Variant = int

  /** A non-null `cl_program` handle; the driver's handles are opaque. */
  type ProgramHandle = nat

  /** One successfully compiled, device-specific program. */
  datatype CacheEntry = CacheEntry(
    variant: Variant,
    height: uint64,
    deviceIdx: nat,
    hash: string,
    program: ProgramHandle)

  /** The four fields a lookup compares. */
  datatype CacheKey = CacheKey(variant: Variant, height: uint64, deviceIdx: nat, hash: string)

  function Key(e: CacheEntry): CacheKey {
    CacheKey(e.variant, e.height, e.deviceIdx, e.hash)
  }

  /** The cache invariant: no two entries share a key. */
  ghost predicate UniqueKeys(c: seq<CacheEntry>) {
    forall i, j | 0 <= i < j < |c| :: Key(c[i]) != Key(c[j])
  }

  /** The lookup loop: the program of the first entry whose key matches. */
  function Lookup(c: seq<CacheEntry>, k: CacheKey): (r: Option<ProgramHandle>)
    ensures r.None? <==> forall e | e in c :: Key(e) != k
  {
    if |c| == 0 then None
    else if Key(c[0]) == k then Some(c[0].program)
    else
      assert forall e | e in c[1..] :: e in c;
      Lookup(c[1..], k)
  }

  /** A lookup that finds something returns the program of the first entry
      whose key matches. */
  lemma {:induction false} LookupFirst(c: seq<CacheEntry>, k: CacheKey)
    ensures Lookup(c, k).Some? ==> exists i | 0 <= i < |c| ::
              Key(c[i]) == k && c[i].program == Lookup(c, k).value && forall j | 0 <= j < i :: Key(c[j]) != k
    decreases |c|
  {
    if |c| > 0 && Key(c[0]) != k && Lookup(c, k).Some? {
      LookupFirst(c[1..], k);
      var i :| 0 <= i < |c[1..]| &&
        Key(c[1..][i]) == k && c[1..][i].program == Lookup(c[1..], k).value && forall j | 0 <= j < i :: Key(c[1..][j]) != k;
      assert Key(c[i + 1]) == k && c[i + 1].program == Lookup(c, k).value;
      assert forall j | 0 <= j < i + 1 :: Key(c[j]) != k by {
        forall j | 0 <= j < i + 1 ensures Key(c[j]) != k {
          if j > 0 { assert c[j] == c[1..][j - 1]; }
        }
      }
    }
  }

  /** `cache[i] = std::move(cache.back()); cache.pop_back();` */
  function SwapRemove(c: seq<CacheEntry>, i: nat): (r: seq<CacheEntry>)
    requires i < |c|
    ensures |r| == |c| - 1
    ensures multiset(r) + multiset{c[i]} == multiset(c)
    ensures forall j | 0 <= j < i :: r[j] == c[j]
  {
    var last := |c| - 1;
    var r := c[i := c[last]][..last];
    SwapRemoveCount(c, i, r);
    r
  }

  lemma SwapRemoveCount(c: seq<CacheEntry>, i: nat, r: seq<CacheEntry>)
    requires i < |c| && r == c[i := c[|c| - 1]][..|c| - 1]
    ensures multiset(r) + multiset{c[i]} == multiset(c)
  {
    var last := |c| - 1;
    if i == last {
      assert c == r + [c[i]];
    } else {
      SwapShape(c, i, r);
      MultisetSwap(c[..i], c[i + 1..last], c[i], c[last]);
    }
  }

  /** The shape of a cache after the swap-with-last when `i` is not last. */
  lemma SwapShape(c: seq<CacheEntry>, i: nat, r: seq<CacheEntry>)
    requires i < |c| - 1 && r == c[i := c[|c| - 1]][..|c| - 1]
    ensures c == c[..i] + [c[i]] + c[i + 1..|c| - 1] + [c[|c| - 1]]
    ensures r == c[..i] + [c[|c| - 1]] + c[i + 1..|c| - 1]
  {
    var last := |c| - 1;
    assert c == c[..i] + [c[i]] + c[i + 1..last] + [c[last]];
  }

  lemma MultisetSwap(a: seq<CacheEntry>, b: seq<CacheEntry>, x: CacheEntry, y: CacheEntry)
    ensures multiset(a + [y] + b) + multiset{x} == multiset(a + [x] + b + [y])
  {
  }

  /** Removing one entry by swap-with-last keeps the keys unique. */
  lemma UniqueAfterSwapRemove(c: seq<CacheEntry>, i: nat)
    requires i < |c| && UniqueKeys(c)
    ensures UniqueKeys(SwapRemove(c, i))
  {
    var r := SwapRemove(c, i);
    var last := |c| - 1;
    assert r == c[i := c[last]][..last];
    forall j, k | 0 <= j < k < |r|
      ensures Key(r[j]) != Key(r[k])
    {
      var j' := if j == i then last else j;
      var k' := if k == i then last else k;
      assert r[j] == c[j'] && r[k] == c[k'];
    }
  }

  /** What one pass of a removal loop leaves: the surviving entries, in the
      order the loop leaves them, and the removed ones in removal order. */
  datatype Sweep = Sweep(kept: seq<CacheEntry>, removed: seq<CacheEntry>)

  /** The removal loop from index `i` on: an entry the predicate condemns is
      overwritten by the last entry, which is examined next; any other entry
      is stepped over. Entries before `i` have already been kept, and
      `removed` holds what has been taken out so far. */
  function SweepFrom(c: seq<CacheEntry>, i: nat, doomed: CacheEntry -> bool, removed: seq<CacheEntry>): (r: Sweep)
    requires i <= |c|
    requires forall j | 0 <= j < i :: !doomed(c[j])
    requires forall e | e in removed :: doomed(e)
    ensures multiset(r.kept) + multiset(r.removed) == multiset(c) + multiset(removed)
    ensures forall e | e in r.kept :: !doomed(e)
    ensures forall e | e in r.removed :: doomed(e)
    decreases |c| - i
  {
    if i == |c| then Sweep(c, removed)
    else if doomed(c[i]) then SweepFrom(SwapRemove(c, i), i, doomed, removed + [c[i]])
    else SweepFrom(c, i + 1, doomed, removed)
  }

  /** The removal loop keeps the cache invariant. */
  lemma {:induction false} SweepKeepsUnique(c: seq<CacheEntry>, i: nat, doomed: CacheEntry -> bool, removed: seq<CacheEntry>)
    requires i <= |c|
    requires forall j | 0 <= j < i :: !doomed(c[j])
    requires forall e | e in removed :: doomed(e)
    ensures UniqueKeys(c) ==> UniqueKeys(SweepFrom(c, i, doomed, removed).kept)
    decreases |c| - i
  {
    if i < |c| && UniqueKeys(c) {
      if doomed(c[i]) {
        UniqueAfterSwapRemove(c, i);
        SweepKeepsUnique(SwapRemove(c, i), i, doomed, removed + [c[i]]);
      } else {
        SweepKeepsUnique(c, i + 1, doomed, removed);
      }
    }
  }

  /** When nothing is condemned the loop changes nothing. */
  lemma {:induction false} SweepNothingDoomed(c: seq<CacheEntry>, i: nat, doomed: CacheEntry -> bool, removed: seq<CacheEntry>)
    requires i <= |c|
    requires forall j | 0 <= j < i :: !doomed(c[j])
    requires forall e | e in removed :: doomed(e)
    ensures (forall e | e in c :: !doomed(e)) ==> SweepFrom(c, i, doomed, removed) == Sweep(c, removed)
    decreases |c| - i
  {
    if i < |c| && forall e | e in c :: !doomed(e) {
      assert !doomed(c[i]);
      SweepNothingDoomed(c, i + 1, doomed, removed);
    }
  }

  /** The full removal loop over the cache, starting at index 0. */
  function SweepAll(c: seq<CacheEntry>, doomed: CacheEntry -> bool): (r: Sweep)
    ensures forall e | e in r.kept :: !doomed(e)
    ensures forall e | e in r.removed :: doomed(e)
    ensures forall e :: multiset(r.kept)[e] == if doomed(e) then 0 else multiset(c)[e]
    ensures forall e :: multiset(r.removed)[e] == if doomed(e) then multiset(c)[e] else 0
    ensures |r.kept| + |r.removed| == |c|
    ensures UniqueKeys(c) ==> UniqueKeys(r.kept)
    ensures (forall e | e in c :: !doomed(e)) ==> r == Sweep(c, [])
  {
    var r := SweepFrom(c, 0, doomed, []);
    assert multiset(r.kept) + multiset(r.removed) == multiset(c);
    assert |multiset(r.kept)| + |multiset(r.removed)| == |multiset(c)|;
    SweepKeepsUnique(c, 0, doomed, []);
    SweepNothingDoomed(c, 0, doomed, []);
    r
  }

  /** An entry is stale when it is for the requested variant and its height
      plus the precompilation depth, computed in `uint64_t`, is below the
      requested height. */
  predicate IsStale(e: CacheEntry, variant: Variant, height: uint64, depth: uint64) {
    e.variant == variant && AddWrap(e.height, depth) < height
  }

  /** The stale-height eviction in `CryptonightR_build_program`. */
  function EvictStale(c: seq<CacheEntry>, variant: Variant, height: uint64, depth: uint64): (r: Sweep)
    ensures forall e | e in r.kept :: !IsStale(e, variant, height, depth)
    ensures forall e | e in r.removed :: IsStale(e, variant, height, depth)
    ensures forall e :: multiset(r.kept)[e] == if IsStale(e, variant, height, depth) then 0 else multiset(c)[e]
    ensures forall e :: multiset(r.removed)[e] == if IsStale(e, variant, height, depth) then multiset(c)[e] else 0
    ensures |r.kept| + |r.removed| == |c|
    ensures UniqueKeys(c) ==> UniqueKeys(r.kept)
    ensures (forall e | e in c :: !IsStale(e, variant, height, depth)) ==> r == Sweep(c, [])
  {
    SweepAll(c, (e: CacheEntry) => IsStale(e, variant, height, depth))
  }

  /** The per-device eviction in `CryptonightR_release`; the removed entries
      are dropped, their programs are not released. */
  function EvictDevice(c: seq<CacheEntry>, deviceIdx: nat): (r: seq<CacheEntry>)
    ensures forall e | e in r :: e.deviceIdx != deviceIdx
    ensures forall e :: multiset(r)[e] == if e.deviceIdx == deviceIdx then 0 else multiset(c)[e]
    ensures |r| <= |c|
    ensures UniqueKeys(c) ==> UniqueKeys(r)
  {
    SweepAll(c, (e: CacheEntry) => e.deviceIdx == deviceIdx).kept
  }

  /** Without `uint64_t` overflow, staleness is the plain comparison
      `entry.height + depth < height`. */
  lemma StaleWithoutOverflow(e: CacheEntry, variant: Variant, height: uint64, depth: uint64)
    requires e.height as int + depth as int < TWO_TO_THE_64
    ensures IsStale(e, variant, height, depth) <==>
              (e.variant == variant && e.height as int + depth as int < height as int)
  {
  }

  /** With overflow the comparison wraps: an entry at the top of the height
      range counts as stale for a far lower requested height. */
  lemma StaleWrapsAround()
    ensures var e := CacheEntry(0, (TWO_TO_THE_64 - 1) as uint64, 0, "", 0);
            IsStale(e, 0, 5, 4) && e.height > 5
  {
  }

  /** A key absent from the cache is still absent once stale entries are
      evicted: eviction only removes entries. */
  lemma EvictionKeepsMiss(c: seq<CacheEntry>, variant: Variant, height: uint64, depth: uint64, k: CacheKey)
    requires Lookup(c, k).None?
    ensures Lookup(EvictStale(c, variant, height, depth).kept, k).None?
  {
    var kept := EvictStale(c, variant, height, depth).kept;
    forall e | e in kept
      ensures Key(e) != k
    {
      assert multiset(kept)[e] > 0;
    }
  }

  /** Lookup on a cache extended at the back: a key absent from the front
      part resolves to the appended entry. */
  lemma {:induction false} LookupAppend(c: seq<CacheEntry>, e: CacheEntry)
    requires Lookup(c, Key(e)).None?
    ensures Lookup(c + [e], Key(e)) == Some(e.program)
    decreases |c|
  {
    if |c| > 0 {
      assert (c + [e])[1..] == c[1..] + [e];
      LookupAppend(c[1..], e);
    }
  }

  /** Appending an entry whose key is absent keeps the keys unique. */
  lemma UniqueAppend(c: seq<CacheEntry>, e: CacheEntry)
    requires Lookup(c, Key(e)).None?
    ensures UniqueKeys(c) ==> UniqueKeys(c + [e])
  {
    var c' := c + [e];
    if UniqueKeys(c) {
      forall i, j | 0 <= i < j < |c'|
        ensures Key(c'[i]) != Key(c'[j])
      {
        if j == |c| {
          assert c'[i] in c;
        }
      }
    }
  }
}

=== FILE: decimal.dfy ===
/** Decimal text of integers, as `std::ostream <<` prints an unsigned value
    and `snprintf("%d")` prints a signed one, together with the reader that
    inverts it. */
module Decimal {
  import opened Base

  predicate IsDigit(c: char) {
    '0' <= c <= '9'
  }

  predicate AllDigits(s: string) {
    forall j | 0 <= j < |s| :: IsDigit(s[j])
  }

  function DigitValue(c: char): int {
    c as int - '0' as int
  }

  function DigitChar(d: nat): (c: char)
    requires d < 10
    ensures IsDigit(c) && DigitValue(c) == d
  {
    ('0' as int + d) as char
  }

  /** Decimal text of `n`: no sign, no leading zeros. */
  function Dec(n: nat): (s: string)
    ensures 0 < |s| && AllDigits(s)
    ensures s[0] == '0' <==> n == 0
    decreases n
  {
    if n < 10 then [DigitChar(n)] else Dec(n / 10) + [DigitChar(n % 10)]
  }

  /** Numeric value of a string of digits, most significant first. */
  function DigitsValue(s: string): nat
    requires AllDigits(s)
  {
    if |s| == 0 then 0 else DigitsValue(s[..|s| - 1]) * 10 + DigitValue(s[|s| - 1])
  }

  /** Length of the longest run of digits at the front of `s`. */
  function DigitSpan(s: string): (k: nat)
    ensures k <= |s|
    ensures AllDigits(s[..k])
    ensures k < |s| ==> !IsDigit(s[k])
  {
    if 0 < |s| && IsDigit(s[0]) then 1 + DigitSpan(s[1..]) else 0
  }

  /** Reads the longest run of leading digits as a number and returns it with
      the text that follows; fails when `s` does not start with a digit. */
  function ParseNat(s: string): (r: Option<(nat, string)>)
    ensures r.None? <==> (|s| == 0 || !IsDigit(s[0]))
    ensures r.Some? ==> |r.value.1| < |s| && r.value.1 == s[|s| - |r.value.1|..]
  {
    var k := DigitSpan(s);
    if k == 0 then None else Some((DigitsValue(s[..k]), s[k..]))
  }

  /** Decimal text of a signed value, as `%d` prints it. */
  function IntText(v: int): (s: string)
    ensures 0 < |s| && IsDigit(s[|s| - 1])
    ensures s[0] == '-' <==> v < 0
  {
    if v < 0 then "-" + Dec(-v) else Dec(v)
  }

  /** Reads an optionally negative decimal number and returns it with the text that follows. */
  function ParseInt(s: string): Option<(int, string)> {
    if 0 < |s| && s[0] == '-' then
      match ParseNat(s[1..])
      case None => None
      case Some((n, rest)) => Some((-(n as int), rest))
    else
      match ParseNat(s)
      case None => None
      case Some((n, rest)) => Some((n as int, rest))
  }

  /** Text that cannot continue a number. */
  predicate Delimited(rest: string) {
    |rest| == 0 || !IsDigit(rest[0])
  }

  lemma {:induction false} DecValue(n: nat)
    ensures DigitsValue(Dec(n)) == n
    decreases n
  {
    if n >= 10 {
      var s := Dec(n);
      assert s[..|s| - 1] == Dec(n / 10);
      DecValue(n / 10);
    }
  }

  lemma {:induction false} SpanOfDigits(ds: string, rest: string)
    requires AllDigits(ds) && Delimited(rest)
    ensures DigitSpan(ds + rest) == |ds|
  {
    if |ds| == 0 {
      assert ds + rest == rest;
    } else {
      assert (ds + rest)[1..] == ds[1..] + rest;
      SpanOfDigits(ds[1..], rest);
    }
  }

  /** Reading back the decimal text of `n` yields `n` and leaves what followed it. */
  lemma ParseNatDec(n: nat, rest: string)
    requires Delimited(rest)
    ensures ParseNat(Dec(n) + rest) == Some((n, rest))
  {
    var d := Dec(n);
    var s := d + rest;
    SpanOfDigits(d, rest);
    assert s[..|d|] == d;
    assert s[|d|..] == rest;
    DecValue(n);
  }

  /** Reading back the `%d` text of `v` yields `v` and leaves what followed it. */
  lemma ParseIntText(v: int, rest: string)
    requires Delimited(rest)
    ensures ParseInt(IntText(v) + rest) == Some((v, rest))
  {
    if v < 0 {
      ParseNegative(-v, rest);
    } else {
      ParseNatDec(v, rest);
      assert (Dec(v) + rest)[0] == Dec(v)[0];
    }
  }

  lemma ParseNegative(n: nat, rest: string)
    requires 0 < n && Delimited(rest)
    ensures ParseInt("-" + Dec(n) + rest) == Some((-(n as int), rest))
  {
    var s := "-" + (Dec(n) + rest);
    assert s[0] == '-' && s[1..] == Dec(n) + rest;
    ParseNatDec(n, rest);
    assert "-" + Dec(n) + rest == s;
  }
}

=== FILE: render.dfy ===
/** The instruction renderer `get_code`: turns the generated random-math
    program into OpenCL statements, one `'\n'`-terminated statement per
    instruction, in input order. The reader `ParseCode` inverts it and is
    the partner against which the renderer's templates are checked. */
module Renderer {
  import opened Base
  import opened Decimal

  /** The six operations the random-math generator emits. */
  datatype Opcode = MUL | ADD | SUB | ROR | ROL | XOR

  /** One generated instruction: `r[dst] op= r[src]`; the immediate `c` is
      rendered for ADD only. */
  datatype Instruction = Instruction(opcode: Opcode, dst: nat, src: nat, c: nat)

  /** The operator and operands that follow `r<dst>` in a statement. */
  function Operation(i: Instruction): string {
    var a := Dec(i.dst);
    var b := Dec(i.src);
    match i.opcode
    case MUL => "*=r" + b + ";"
    case ADD => "+=r" + b + "+" + Dec(i.c) + "U;"
    case SUB => "-=r" + b + ";"
    case ROR => "=rotate(r" + a + ",ROT_BITS-r" + b + ");"
    case ROL => "=rotate(r" + a + ",r" + b + ");"
    case XOR => "^=r" + b + ";"
  }

  /** The statement text of one instruction, without its line terminator. */
  function Statement(i: Instruction): string {
    "r" + Dec(i.dst) + Operation(i)
  }

  function Line(i: Instruction): string {
    Statement(i) + "\n"
  }

  /** `get_code`: the statements of `code`, in order. */
  function Render(code: seq<Instruction>): string {
    if |code| == 0 then "" else Line(code[0]) + Render(code[1..])
  }

  /** Number of occurrences of `c` in `s`. */
  function Count(s: string, c: char): nat {
    if |s| == 0 then 0 else (if s[0] == c then 1 else 0) + Count(s[1..], c)
  }

  /** The instruction as far as its rendering can tell: the immediate of
      every opcode other than ADD is not printed, so it is cleared. */
  function Canonical(i: Instruction): Instruction {
    if i.opcode == ADD then i else i.(c := 0)
  }

  function CanonicalCode(code: seq<Instruction>): seq<Instruction> {
    seq(|code|, j requires 0 <= j < |code| => Canonical(code[j]))
  }

  // ---------------------------------------------------------------------
  // The reader: the inverse of Render.

  /** Reads `<b>;\n` and completes a two-register instruction. */
  function ParseBinaryTail(op: Opcode, a: nat, t: string): (r: Option<(Instruction, string)>)
    ensures r.Some? ==> |r.value.1| < |t| && r.value.1 == t[|t| - |r.value.1|..]
  {
    match ParseNat(t)
    case None => None
    case Some((b, u)) =>
      if StartsWith(u, ";\n") then Some((Instruction(op, a, b, 0), u[2..])) else None
  }

  /** Reads `<b>+<c>U;\n` and completes an ADD. */
  function ParseAddTail(a: nat, t: string): (r: Option<(Instruction, string)>)
    ensures r.Some? ==> |r.value.1| < |t| && r.value.1 == t[|t| - |r.value.1|..]
  {
    match ParseNat(t)
    case None => None
    case Some((b, u)) =>
      if !StartsWith(u, "+") then None
      else
        match ParseNat(u[1..])
        case None => None
        case Some((c, w)) =>
          if StartsWith(w, "U;\n") then Some((Instruction(ADD, a, b, c), w[3..])) else None
  }

  /** Reads `<b>);\n` and completes a rotation. */
  function ParseRotateTail(op: Opcode, a: nat, t: string): (r: Option<(Instruction, string)>)
    ensures r.Some? ==> |r.value.1| < |t| && r.value.1 == t[|t| - |r.value.1|..]
  {
    match ParseNat(t)
    case None => None
    case Some((b, u)) =>
      if StartsWith(u, ");\n") then Some((Instruction(op, a, b, 0), u[3..])) else None
  }

  /** Reads `<a>,ROT_BITS-r<b>);\n` (ROR) or `<a>,r<b>);\n` (ROL), checking
      that the rotated register is the destination `a`. */
  function ParseRotate(a: nat, t: string): (r: Option<(Instruction, string)>)
    ensures r.Some? ==> |r.value.1| < |t| && r.value.1 == t[|t| - |r.value.1|..]
  {
    match ParseNat(t)
    case None => None
    case Some((a', u)) =>
      if a' != a then None
      else if StartsWith(u, ",ROT_BITS-r") then ParseRotateTail(ROR, a, u[11..])
      else if StartsWith(u, ",r") then ParseRotateTail(ROL, a, u[2..])
      else None
  }

  /** Reads what follows the destination register `a`: the operator and
      the rest of the line. */
  function ParseOperator(a: nat, t: string): (r: Option<(Instruction, string)>)
    ensures r.Some? ==> |r.value.1| < |t| && r.value.1 == t[|t| - |r.value.1|..]
  {
    if StartsWith(t, "*=r") then ParseBinaryTail(MUL, a, t[3..])
    else if StartsWith(t, "+=r") then ParseAddTail(a, t[3..])
    else if StartsWith(t, "-=r") then ParseBinaryTail(SUB, a, t[3..])
    else if StartsWith(t, "^=r") then ParseBinaryTail(XOR, a, t[3..])
    else if StartsWith(t, "=rotate(r") then ParseRotate(a, t[9..])
    else None
  }

  /** Reads one line written by `Line` and returns its instruction with the
      text that follows. */
  function ParseLine(s: string): (r: Option<(Instruction, string)>)
    ensures r.Some? ==> |r.value.1| < |s| && r.value.1 == s[|s| - |r.value.1|..]
  {
    if !StartsWith(s, "r") then None
    else
      match ParseNat(s[1..])
      case None => None
      case Some((a, t)) => ParseOperator(a, t)
  }

  /** Reads a whole rendered program back into its instructions. */
  function ParseCode(s: string): Option<seq<Instruction>>
    decreases |s|
  {
    if |s| == 0 then Some([])
    else
      match ParseLine(s)
      case None => None
      case Some((i, rest)) =>
        match ParseCode(rest)
        case None => None
        case Some(tail) => Some([i] + tail)
  }

  // ---------------------------------------------------------------------
  // Properties of the renderer.

  /** Rendering the empty program gives the empty text, and nothing else does. */
  lemma RenderEmpty(code: seq<Instruction>)
    ensures Render(code) == "" <==> |code| == 0
  {
    if |code| > 0 {
      assert Render(code)[0] == 'r';
    }
  }

  /** Rendering is compositional: the text of `a + b` is the text of `a`
      followed by the text of `b`. */
  lemma {:induction false} RenderAppend(a: seq<Instruction>, b: seq<Instruction>)
    ensures Render(a + b) == Render(a) + Render(b)
    decreases |a|
  {
    if |a| == 0 {
      assert a + b == b;
    } else {
      assert (a + b)[1..] == a[1..] + b;
      RenderAppend(a[1..], b);
    }
  }

  lemma {:induction false} CountAppend(s: string, t: string, c: char)
    ensures Count(s + t, c) == Count(s, c) + Count(t, c)
    decreases |s|
  {
    if |s| == 0 {
      assert s + t == t;
    } else {
      assert (s + t)[1..] == s[1..] + t;
      CountAppend(s[1..], t, c);
    }
  }

  lemma {:induction false} CountAbsent(s: string, c: char)
    requires c !in s
    ensures Count(s, c) == 0
    decreases |s|
  {
    if |s| > 0 {
      assert s == [s[0]] + s[1..];
      CountAbsent(s[1..], c);
    }
  }

  lemma DecHasNoNewline(n: nat)
    ensures '\n' !in Dec(n)
  {
  }

  /** A statement carries no line terminator of its own. */
  lemma StatementHasNoNewline(i: Instruction)
    ensures '\n' !in Statement(i)
  {
    DecHasNoNewline(i.dst);
    OperationHasNoNewline(i);
    assert Statement(i) == "r" + Dec(i.dst) + Operation(i);
  }

  lemma OperationHasNoNewline(i: Instruction)
    ensures '\n' !in Operation(i)
  {
    var a, b := Dec(i.dst), Dec(i.src);
    DecHasNoNewline(i.dst);
    DecHasNoNewline(i.src);
    match i.opcode
    case MUL => assert Operation(i) == "*=r" + b + ";";
    case ADD => DecHasNoNewline(i.c); assert Operation(i) == "+=r" + b + "+" + Dec(i.c) + "U;";
    case SUB => assert Operation(i) == "-=r" + b + ";";
    case ROR => assert Operation(i) == "=rotate(r" + a + ",ROT_BITS-r" + b + ");";
    case ROL => assert Operation(i) == "=rotate(r" + a + ",r" + b + ");";
    case XOR => assert Operation(i) == "^=r" + b + ";";
  }

  /** Every instruction contributes exactly one `'\n'`-terminated line. */
  lemma {:induction false} RenderLineCount(code: seq<Instruction>)
    ensures Count(Render(code), '\n') == |code|
    decreases |code|
  {
    if |code| > 0 {
      StatementHasNoNewline(code[0]);
      CountAbsent(Statement(code[0]), '\n');
      CountAppend(Statement(code[0]), "\n", '\n');
      CountAppend(Line(code[0]), Render(code[1..]), '\n');
      RenderLineCount(code[1..]);
    }
  }

  /** Splitting a literal prefix off a text. */
  lemma Strip(p: string, r: string)
    ensures StartsWith(p + r, p) && (p + r)[|p|..] == r
  {
    assert (p + r)[..|p|] == p;
  }

  /** A text that differs from `p` at position `k` does not start with `p`. */
  lemma Mismatch(s: string, p: string, k: nat)
    requires k < |s| && k < |p| && s[k] != p[k]
    ensures !StartsWith(s, p)
  {
  }

  /** Reading back the tail `<b>;\n` of a MUL, SUB or XOR line. */
  lemma ParseBinaryTailOf(op: Opcode, a: nat, b: nat, rest: string)
    ensures ParseBinaryTail(op, a, Dec(b) + (";\n" + rest)) == Some((Instruction(op, a, b, 0), rest))
  {
    ParseNatDec(b, ";\n" + rest);
    Strip(";\n", rest);
  }

  /** Reading back the tail `<b>);\n` of a ROR or ROL line. */
  lemma ParseRotateTailOf(op: Opcode, a: nat, b: nat, rest: string)
    ensures ParseRotateTail(op, a, Dec(b) + (");\n" + rest)) == Some((Instruction(op, a, b, 0), rest))
  {
    ParseNatDec(b, ");\n" + rest);
    Strip(");\n", rest);
  }

  /** Reading back the tail `<b>+<c>U;\n` of an ADD line. */
  lemma ParseAddTailOf(a: nat, b: nat, c: nat, rest: string)
    ensures ParseAddTail(a, Dec(b) + ("+" + (Dec(c) + ("U;\n" + rest))))
              == Some((Instruction(ADD, a, b, c), rest))
  {
    var w := "U;\n" + rest;
    var u := "+" + (Dec(c) + w);
    ParseNatDec(b, u);
    Strip("+", Dec(c) + w);
    ParseNatDec(c, w);
    Strip("U;\n", rest);
  }

  /** Reading back a right rotation after its `=rotate(r`. */
  lemma ParseRorOf(a: nat, b: nat, rest: string)
    ensures ParseRotate(a, Dec(a) + (",ROT_BITS-r" + (Dec(b) + (");\n" + rest))))
              == Some((Instruction(ROR, a, b, 0), rest))
  {
    var v := Dec(b) + (");\n" + rest);
    ParseNatDec(a, ",ROT_BITS-r" + v);
    Strip(",ROT_BITS-r", v);
    ParseRotateTailOf(ROR, a, b, rest);
  }

  /** Reading back a left rotation after its `=rotate(r`. */
  lemma ParseRolOf(a: nat, b: nat, rest: string)
    ensures ParseRotate(a, Dec(a) + (",r" + (Dec(b) + (");\n" + rest))))
              == Some((Instruction(ROL, a, b, 0), rest))
  {
    var v := Dec(b) + (");\n" + rest);
    var u := ",r" + v;
    ParseNatDec(a, u);
    Strip(",r", v);
    Mismatch(u, ",ROT_BITS-r", 1);
    ParseRotateTailOf(ROL, a, b, rest);
  }

  /** Regrouping the text of a rotation line to the right. */
  lemma RotateText(p: string, a: string, q: string, b: string, rest: string)
    ensures (p + a + q + b + ");") + ("\n" + rest) == p + (a + (q + (b + (");\n" + rest))))
  {
    assert ");\n" + rest == ");" + ("\n" + rest);
  }

  /** Text starting `=rotate(r` is read as a rotation. */
  lemma ParseRotateOperator(a: nat, x: string)
    ensures ParseOperator(a, "=rotate(r" + x) == ParseRotate(a, x)
  {
    var t := "=rotate(r" + x;
    Strip("=rotate(r", x);
    Mismatch(t, "*=r", 0);
    Mismatch(t, "+=r", 0);
    Mismatch(t, "-=r", 0);
    Mismatch(t, "^=r", 0);
  }

  lemma ParseMulOperation(i: Instruction, rest: string)
    requires i.opcode == MUL
    ensures ParseOperator(i.dst, Operation(i) + ("\n" + rest)) == Some((Canonical(i), rest))
  {
    var x := Dec(i.src) + (";\n" + rest);
    assert Operation(i) + ("\n" + rest) == "*=r" + x;
    Strip("*=r", x);
    ParseBinaryTailOf(MUL, i.dst, i.src, rest);
  }

  lemma ParseAddOperation(i: Instruction, rest: string)
    requires i.opcode == ADD
    ensures ParseOperator(i.dst, Operation(i) + ("\n" + rest)) == Some((Canonical(i), rest))
  {
    var x := Dec(i.src) + ("+" + (Dec(i.c) + ("U;\n" + rest)));
    assert Operation(i) + ("\n" + rest) == "+=r" + x;
    Strip("+=r", x);
    Mismatch("+=r" + x, "*=r", 0);
    ParseAddTailOf(i.dst, i.src, i.c, rest);
  }

  lemma ParseSubOperation(i: Instruction, rest: string)
    requires i.opcode == SUB
    ensures ParseOperator(i.dst, Operation(i) + ("\n" + rest)) == Some((Canonical(i), rest))
  {
    var x := Dec(i.src) + (";\n" + rest);
    assert Operation(i) + ("\n" + rest) == "-=r" + x;
    Strip("-=r", x);
    Mismatch("-=r" + x, "*=r", 0);
    Mismatch("-=r" + x, "+=r", 0);
    ParseBinaryTailOf(SUB, i.dst, i.src, rest);
  }

  lemma ParseXorOperation(i: Instruction, rest: string)
    requires i.opcode == XOR
    ensures ParseOperator(i.dst, Operation(i) + ("\n" + rest)) == Some((Canonical(i), rest))
  {
    var x := Dec(i.src) + (";\n" + rest);
    assert Operation(i) + ("\n" + rest) == "^=r" + x;
    Strip("^=r", x);
    Mismatch("^=r" + x, "*=r", 0);
    Mismatch("^=r" + x, "+=r", 0);
    Mismatch("^=r" + x, "-=r", 0);
    ParseBinaryTailOf(XOR, i.dst, i.src, rest);
  }

  lemma ParseRorOperation(i: Instruction, rest: string)
    requires i.opcode == ROR
    ensures ParseOperator(i.dst, Operation(i) + ("\n" + rest)) == Some((Canonical(i), rest))
  {
    var x := Dec(i.dst) + (",ROT_BITS-r" + (Dec(i.src) + (");\n" + rest)));
    assert Operation(i) == "=rotate(r" + Dec(i.dst) + ",ROT_BITS-r" + Dec(i.src) + ");";
    RotateText("=rotate(r", Dec(i.dst), ",ROT_BITS-r", Dec(i.src), rest);
    ParseRotateOperator(i.dst, x);
    ParseRorOf(i.dst, i.src, rest);
  }

  lemma ParseRolOperation(i: Instruction, rest: string)
    requires i.opcode == ROL
    ensures ParseOperator(i.dst, Operation(i) + ("\n" + rest)) == Some((Canonical(i), rest))
  {
    var x := Dec(i.dst) + (",r" + (Dec(i.src) + (");\n" + rest)));
    assert Operation(i) == "=rotate(r" + Dec(i.dst) + ",r" + Dec(i.src) + ");";
    RotateText("=rotate(r", Dec(i.dst), ",r", Dec(i.src), rest);
    ParseRotateOperator(i.dst, x);
    ParseRolOf(i.dst, i.src, rest);
  }

  /** The reader recovers each rendered line: opcode, both registers and,
      for ADD, the immediate. */
  lemma ParseLineOfLine(i: Instruction, rest: string)
    ensures ParseLine(Line(i) + rest) == Some((Canonical(i), rest))
  {
    var t := Operation(i) + ("\n" + rest);
    assert Line(i) + rest == "r" + (Dec(i.dst) + t);
    OperationDelimits(i, "\n" + rest);
    ParseLineStart(i.dst, t);
    match i.opcode
    case MUL => ParseMulOperation(i, rest);
    case ADD => ParseAddOperation(i, rest);
    case SUB => ParseSubOperation(i, rest);
    case XOR => ParseXorOperation(i, rest);
    case ROR => ParseRorOperation(i, rest);
    case ROL => ParseRolOperation(i, rest);
  }

  /** The operator text cannot continue the destination register's number. */
  lemma OperationDelimits(i: Instruction, x: string)
    ensures Delimited(Operation(i) + x)
  {
    assert (Operation(i) + x)[0] == Operation(i)[0];
  }

  /** A line starts with `r` and the destination register; the reader then
      hands the rest to the operator reader. */
  lemma ParseLineStart(a: nat, t: string)
    requires Delimited(t)
    ensures ParseLine("r" + (Dec(a) + t)) == ParseOperator(a, t)
  {
    Strip("r", Dec(a) + t);
    ParseNatDec(a, t);
  }

  /** Round trip: reading back a rendered program yields the program,
      up to the immediates that are never printed. */
  lemma {:induction false} ParseRender(code: seq<Instruction>)
    ensures ParseCode(Render(code)) == Some(CanonicalCode(code))
    decreases |code|
  {
    if |code| == 0 {
      assert CanonicalCode(code) == [];
    } else {
      ParseRender(code[1..]);
      ParseCodeOfLine(code[0], Render(code[1..]), CanonicalCode(code[1..]));
      CanonicalCodeCons(code);
    }
  }

  lemma CanonicalCodeCons(code: seq<Instruction>)
    requires 0 < |code|
    ensures CanonicalCode(code) == [Canonical(code[0])] + CanonicalCode(code[1..])
  {
    assert CanonicalCode(code)[1..] == CanonicalCode(code[1..]);
  }

  /** One step of the reader: a rendered line, then the rest of the program. */
  lemma ParseCodeOfLine(i: Instruction, rest: string, tail: seq<Instruction>)
    requires ParseCode(rest) == Some(tail)
    ensures ParseCode(Line(i) + rest) == Some([Canonical(i)] + tail)
  {
    ParseLineOfLine(i, rest);
    ParseCodeStep(Line(i) + rest, Canonical(i), rest);
  }

  /** The reader consumes a line and then the rest of the text. */
  lemma ParseCodeStep(s: string, i: Instruction, rest: string)
    requires ParseLine(s) == Some((i, rest))
    ensures ParseCode(rest).Some? ==> ParseCode(s) == Some([i] + ParseCode(rest).value)
  {
  }

  /** The text of an instruction depends on its canonical form only. */
  lemma {:induction false} RenderCanonical(code: seq<Instruction>)
    ensures Render(CanonicalCode(code)) == Render(code)
    decreases |code|
  {
    if |code| > 0 {
      assert CanonicalCode(code)[1..] == CanonicalCode(code[1..]);
      RenderCanonical(code[1..]);
    }
  }

  /** Two programs render to the same text exactly when they agree on every
      opcode, register and ADD immediate, in the same order. */
  lemma RenderInjective(a: seq<Instruction>, b: seq<Instruction>)
    ensures Render(a) == Render(b) <==> CanonicalCode(a) == CanonicalCode(b)
  {
    ParseRender(a);
    ParseRender(b);
    RenderCanonical(a);
    RenderCanonical(b);
  }
}

=== FILE: request.dfy ===
/** `CryptonightR_get_program`: the request path. It rejects unsupported
    variants, splices the rendered random-math code into the kernel template
    at the first `XMRIG_INCLUDE_RANDOM_MATH`, appends the variant selector to
    the compile options, hashes device, source and options, and answers from
    the cache or else builds. */
module Request {
  import opened Base
  import opened Decimal
  import opened Renderer
  import opened Cache
  import opened Builder

  /** The collaborators the request path calls but does not define, each a
      deterministic function: the kernel template text, the precompilation
      depth, the enumerator values of the two CryptonightR variants, the
      instruction generator `v4_random_math_init`, `OclCache::getOptions`,
      `OclCache::get_device_string` and `OclCache::calc_hash`. */
  datatype Env = Env(
    template: string,
    depth: uint64,
    wow: Variant,
    v4: Variant,
    generate: (Variant, uint64) -> seq<Instruction>,
    baseOptions: (Variant, DeviceId) -> string,
    queryDeviceString: DeviceId -> Option<string>,
    calcHash: (string, string, string) -> string)

  const Marker: string := "XMRIG_INCLUDE_RANDOM_MATH"
  const VariantFlag: string := " -DVARIANT="
  const WideFlag: string := " -DRANDOM_MATH_64_BIT"

  /** `strstr`: the first position at or after `i` where `needle` occurs. */
  function FindFrom(s: string, needle: string, i: nat): (r: Option<nat>)
    requires forall j | 0 <= j < i :: !OccursAt(s, needle, j)
    ensures r.Some? ==> OccursAt(s, needle, r.value) && forall j | 0 <= j < r.value :: !OccursAt(s, needle, j)
    ensures r.None? ==> forall j: nat :: !OccursAt(s, needle, j)
    decreases |s| - i
  {
    if |s| < i + |needle| then None
    else if OccursAt(s, needle, i) then Some(i)
    else FindFrom(s, needle, i + 1)
  }

  /** The position of the first insertion marker in the template. */
  function FindMarker(template: string): (r: Option<nat>)
    ensures r.Some? ==> OccursAt(template, Marker, r.value)
    ensures r.Some? ==> forall j | 0 <= j < r.value :: !OccursAt(template, Marker, j)
    ensures r.None? <==> forall j: nat :: !OccursAt(template, Marker, j)
  {
    FindFrom(template, Marker, 0)
  }

  /** The template with the marker at `at` replaced by `code`. */
  function Splice(template: string, at: nat, code: string): (s: string)
    requires OccursAt(template, Marker, at)
    ensures |s| == |template| - |Marker| + |code|
    ensures s[..at] == template[..at]
    ensures s[at..at + |code|] == code
    ensures s[at + |code|..] == template[at + |Marker|..]
  {
    var s := template[..at] + code + template[at + |Marker|..];
    assert s[..at] == template[..at];
    assert s[at..at + |code|] == code;
    s
  }

  /** Putting the marker back in place of the spliced code restores the
      template: the splice changes nothing else. */
  lemma SpliceRestores(template: string, at: nat, code: string)
    requires OccursAt(template, Marker, at)
    ensures var s := Splice(template, at, code);
            s[..at] + Marker + s[at + |code|..] == template
  {
    var s := Splice(template, at, code);
    assert template == template[..at] + template[at..at + |Marker|] + template[at + |Marker|..];
  }

  /** `is_64bit`: no variant is compiled with 64-bit random math. */
  function Is64Bit(variant: Variant): bool {
    false
  }

  /** The compile options: the base options, the variant selector and, for
      64-bit variants, the wide-arithmetic flag. The selector is the last
      thing in the options and names the variant. */
  function Options(base: string, variant: Variant): (r: string)
    ensures StartsWith(r, base + VariantFlag)
    ensures ParseInt(r[|base + VariantFlag|..]) == Some((variant, ""))
  {
    var r := base + VariantFlag + IntText(variant) + (if Is64Bit(variant) then WideFlag else "");
    assert r[..|base + VariantFlag|] == base + VariantFlag;
    assert r[|base + VariantFlag|..] == IntText(variant) + "";
    ParseIntText(variant, "");
    r
  }

  /** The options never end in the wide-arithmetic flag: `is_64bit` holds
      of no variant. */
  lemma OptionsNeverWide(base: string, variant: Variant)
    ensures !EndsWith(Options(base, variant), WideFlag)
  {
    var r := Options(base, variant);
    var t := IntText(variant);
    assert r == base + VariantFlag + t;
    assert r[|r| - 1] == t[|t| - 1];
  }

  predicate Supported(env: Env, variant: Variant) {
    variant == env.wow || variant == env.v4
  }

  /** What a request computes before it touches the cache. */
  datatype Prepared = Prepared(ctx: Context, source: string, options: string, hash: string)

  /** The context with its device string filled in on demand; None when it
      is empty and `get_device_string` fails. */
  function WithDeviceString(env: Env, ctx: Context): (r: Option<Context>)
    ensures r.None? <==> (ctx.deviceString == "" && env.queryDeviceString(ctx.device).None?)
    ensures r.Some? ==> r.value.deviceIdx == ctx.deviceIdx && r.value.device == ctx.device && r.value.program == ctx.program
    ensures r.Some? && ctx.deviceString != "" ==> r.value == ctx
    ensures r.Some? && ctx.deviceString == "" ==>
              r.value == ctx.(deviceString := env.queryDeviceString(ctx.device).value)
  {
    if ctx.deviceString != "" then Some(ctx)
    else match env.queryDeviceString(ctx.device)
      case None => None
      case Some(s) => Some(ctx.(deviceString := s))
  }

  /** The checks and text-building steps of a request, in the order the
      request performs them: the marker, the variant, the options, the
      device string, the hash. */
  function Prepare(env: Env, ctx: Context, variant: Variant, height: uint64): (r: Option<Prepared>)
    ensures r.None? <==>
              (FindMarker(env.template).None? || !Supported(env, variant) || WithDeviceString(env, ctx).None?)
    ensures r.Some? ==> Some(r.value.ctx) == WithDeviceString(env, ctx)
    ensures r.Some? ==>
              && r.value.source == Splice(env.template, FindMarker(env.template).value, Render(env.generate(variant, height)))
              && r.value.options == Options(env.baseOptions(variant, ctx.device), variant)
              && r.value.hash == env.calcHash(r.value.ctx.deviceString, r.value.source, r.value.options)
  {
    match FindMarker(env.template)
    case None => None
    case Some(at) =>
      if !Supported(env, variant) then None
      else
        var source := Splice(env.template, at, Render(env.generate(variant, height)));
        var options := Options(env.baseOptions(variant, ctx.device), variant);
        match WithDeviceString(env, ctx)
        case None => None
        case Some(ctx') =>
          Some(Prepared(ctx', source, options, env.calcHash(ctx'.deviceString, source, options)))
  }

  /** The result of a request: the program (None for `nullptr`), the cache
      and context afterwards, and the driver calls made. */
  datatype Reply = Reply(program: Option<ProgramHandle>, cache: seq<CacheEntry>, ctx: Context, calls: seq<DriverCall>)

  function KeyOf(p: Prepared, variant: Variant, height: uint64): CacheKey {
    CacheKey(variant, height, p.ctx.deviceIdx, p.hash)
  }

  /** `CryptonightR_get_program`. A background request only queues the
      same request for later and answers None. */
  function GetProgram(
    env: Env, cache: seq<CacheEntry>, ctx: Context, variant: Variant, height: uint64,
    background: bool, oldKernel: Option<KernelHandle>, driver: DriverOutcome): (r: Reply)
    ensures background ==> r == Reply(None, cache, ctx, [])
    ensures !background && Prepare(env, ctx, variant, height).None? ==> r == Reply(None, cache, ctx, [])
    ensures UniqueKeys(cache) ==> UniqueKeys(r.cache)
    ensures !background && Prepare(env, ctx, variant, height).Some? ==>
              var p := Prepare(env, ctx, variant, height).value;
              var key := KeyOf(p, variant, height);
              && r.ctx == p.ctx
              && (r.program.Some? ==> Lookup(r.cache, key) == r.program)
              && (Lookup(cache, key).Some? ==> r == Reply(Lookup(cache, key), cache, p.ctx, []))
    ensures !background && Prepare(env, ctx, variant, height).Some? ==>
              var p := Prepare(env, ctx, variant, height).value;
              var key := KeyOf(p, variant, height);
              var swept := EvictStale(cache, variant, height, env.depth);
              var prelude := Prelude(oldKernel, swept.removed);
              Lookup(cache, key).None? ==>
                && Creates(r.calls) == 1
                && |prelude| < |r.calls| && r.calls[..|prelude|] == prelude
                && r.calls[|prelude|] == CreateProgram(p.source)
                && (driver.created.Some? ==>
                      |prelude| + 1 < |r.calls| && r.calls[|prelude| + 1] == CompileProgram(driver.created.value, p.options))
                && (r.program.Some? <==> (driver.created.Some? && driver.compiled && driver.waited))
                && (r.program.Some? ==>
                      r.program == driver.created &&
                      r.cache == swept.kept + [CacheEntry(variant, height, p.ctx.deviceIdx, p.hash, r.program.value)])
                && (r.program.None? ==> r.cache == swept.kept)
                && (r.program.None? && driver.created.Some? ==> r.calls[|r.calls| - 1] == ReleaseProgram(driver.created.value))
                && r.calls == prelude + TryCompile(p.source, p.options, driver).calls
  {
    if background then Reply(None, cache, ctx, [])
    else
      match Prepare(env, ctx, variant, height)
      case None => Reply(None, cache, ctx, [])
      case Some(p) =>
        match Lookup(cache, KeyOf(p, variant, height))
        case Some(program) => Reply(Some(program), cache, p.ctx, [])
        case None =>
          EvictionKeepsMiss(cache, variant, height, env.depth, KeyOf(p, variant, height));
          var b := BuildProgram(cache, p.ctx, variant, height, env.depth, oldKernel, p.source, p.options, p.hash, driver);
          Reply(b.program, b.cache, p.ctx, b.calls)
  }

  /** A request that misses the cache answers with the build of its
      prepared source, options and hash, on the context with the device
      string filled in. */
  lemma RequestBuilds(
    env: Env, cache: seq<CacheEntry>, ctx: Context, variant: Variant, height: uint64,
    oldKernel: Option<KernelHandle>, driver: DriverOutcome)
    requires Prepare(env, ctx, variant, height).Some?
    ensures var p := Prepare(env, ctx, variant, height).value;
            var b := BuildProgram(cache, p.ctx, variant, height, env.depth, oldKernel, p.source, p.options, p.hash, driver);
            Lookup(cache, KeyOf(p, variant, height)).None? ==>
              GetProgram(env, cache, ctx, variant, height, false, oldKernel, driver) == Reply(b.program, b.cache, p.ctx, b.calls)
  {
  }

  /** A program a request had to build was waited for and is not released
      after the calls before the re-check: the cache owns it. */
  lemma RequestKeepsProgram(
    env: Env, cache: seq<CacheEntry>, ctx: Context, variant: Variant, height: uint64,
    oldKernel: Option<KernelHandle>, driver: DriverOutcome)
    requires Prepare(env, ctx, variant, height).Some?
    ensures var p := Prepare(env, ctx, variant, height).value;
            var r := GetProgram(env, cache, ctx, variant, height, false, oldKernel, driver);
            var n := |Prelude(oldKernel, EvictStale(cache, variant, height, env.depth).removed)|;
            Lookup(cache, KeyOf(p, variant, height)).None? && r.program.Some? ==>
              n <= |r.calls|
              && WaitBuild(r.program.value) in r.calls[n..]
              && ReleaseProgram(r.program.value) !in r.calls[n..]
  {
    var p := Prepare(env, ctx, variant, height).value;
    if Lookup(cache, KeyOf(p, variant, height)).None? {
      EvictionKeepsMiss(cache, variant, height, env.depth, KeyOf(p, variant, height));
    }
    BuildKeepsProgram(cache, p.ctx, variant, height, env.depth, oldKernel, p.source, p.options, p.hash, driver);
  }

  /** A request for an unsupported variant, or against a template without
      the marker, answers None and changes nothing. */
  lemma RejectedRequest(
    env: Env, cache: seq<CacheEntry>, ctx: Context, variant: Variant, height: uint64,
    oldKernel: Option<KernelHandle>, driver: DriverOutcome)
    requires !Supported(env, variant) || forall j: nat :: !OccursAt(env.template, Marker, j)
    ensures GetProgram(env, cache, ctx, variant, height, false, oldKernel, driver) == Reply(None, cache, ctx, [])
  {
  }

  /** The source a request compiles is the template with its first marker
      replaced by the rendered code, which reads back as the generated
      program. */
  lemma PreparedSource(env: Env, ctx: Context, variant: Variant, height: uint64)
    requires Prepare(env, ctx, variant, height).Some?
    ensures var at := FindMarker(env.template).value;
            var code := Render(env.generate(variant, height));
            var s := Prepare(env, ctx, variant, height).value.source;
            && s[..at] == env.template[..at]
            && ParseCode(s[at..at + |code|]) == Some(CanonicalCode(env.generate(variant, height)))
            && s[at + |code|..] == env.template[at + |Marker|..]
  {
    ParseRender(env.generate(variant, height));
  }

  /** The options a request compiles with are the base options followed by
      the variant selector, which reads back as the variant; the
      wide-arithmetic flag is never among them. */
  lemma PreparedOptions(env: Env, ctx: Context, variant: Variant, height: uint64)
    ensures var r := Prepare(env, ctx, variant, height);
            var head := env.baseOptions(variant, ctx.device) + VariantFlag;
            r.Some? ==>
              && StartsWith(r.value.options, head)
              && ParseInt(r.value.options[|head|..]) == Some((variant, ""))
              && !EndsWith(r.value.options, WideFlag)
  {
    if Prepare(env, ctx, variant, height).Some? {
      OptionsNeverWide(env.baseOptions(variant, ctx.device), variant);
    }
  }

  /** The device string is queried at most once per context: once filled in
      with a non-empty string, filling in again makes no query and changes
      nothing. */
  lemma DeviceStringQueriedOnce(env: Env, ctx: Context)
    ensures var r := WithDeviceString(env, ctx);
            r.Some? && r.value.deviceString != "" ==> WithDeviceString(env, r.value) == r
  {
  }

  /** A second identical request after a successful one is answered from
      the cache: the same program, nothing changed, no driver call. */
  lemma RepeatRequestHits(
    env: Env, cache: seq<CacheEntry>, ctx: Context, variant: Variant, height: uint64,
    oldKernel: Option<KernelHandle>, oldKernel': Option<KernelHandle>,
    driver: DriverOutcome, driver': DriverOutcome)
    ensures var r := GetProgram(env, cache, ctx, variant, height, false, oldKernel, driver);
            r.program.Some? ==>
              GetProgram(env, r.cache, r.ctx, variant, height, false, oldKernel', driver')
                == Reply(r.program, r.cache, r.ctx, [])
  {
    var r := GetProgram(env, cache, ctx, variant, height, false, oldKernel, driver);
    if r.program.Some? {
      var p := Prepare(env, ctx, variant, height).value;
      assert WithDeviceString(env, r.ctx) == Some(r.ctx);
      assert Prepare(env, r.ctx, variant, height) == Some(p);
    }
  }

  /** Once a context is released, no request for its device can be answered
      from the cache. */
  lemma ReleasedDeviceMisses(cache: seq<CacheEntry>, ctx: Context, variant: Variant, height: uint64, hash: string)
    ensures Lookup(ReleaseContext(cache, ctx).cache, CacheKey(variant, height, ctx.deviceIdx, hash)).None?
  {
  }
}
